=== FILE: README.md ===
# NDHRHIS facility scraper, modelled in Dafny

The scraper crawls the NDHRHIS reporting portal one year at a time. It reads
the regions of a year from the year's saved nationwide page. It then posts
one form request per region, per province of each region and per
municipality of each province, and saves the report tables of every page it
gets back as CSV files under `out_dir/<year>/<region>/<province>/<municipality>`.
Two scripts do this. `scrape_ownership.py` runs the ownership report
(`sbrep=E`) and writes every table of a page to one file.
`scrape_everything.py` runs the same crawl under a `ScrapeConfig`: once for
the ownership report and once for the complete report
(`sbrep=A%20B%20C%20D%20E`), which writes one file per `treport<Letter>`
table.

The model has these modules:

- `Text`: character classes, `strip`, `lower`, decimal rendering, and `^`/`=`
  splitting used to read a URL back.
- `Sanitize`: `sanitize_filename`.
- `YearConfig`: `YEAR_CONFIG` and `build_post_url`. The function is partial:
  a year missing from the table is a `KeyError`.
- `Page`: a parsed page, reduced to its `ddparams` select and its tables.
- `Dropdown`: `extract_dropdown_values`. It is a specification function
  together with the loop that computes it.
- `Tables`: the two table savers. Each is a method over a `FileSystem` object
  whose path map the savers overwrite in place, together with the fold that
  specifies it.
- `Crawl`: the task tree and the worker. A `Crawler` object holds the FIFO
  queue and the file system. `Drain` is the order in which a single worker
  runs the tasks. The network, the nationwide HTML files and failing writes
  are the oracles of an `Env`.
- `Seqs` and `Wrappers`: generic helpers (filter-map over a sequence, the last
  accepted index, `Option`, `Result`).

## Model

| member | source | states |
|---|---|---|
| Sanitize.SanitizeFilename | scrape_everything.py:71-72 | the result is never longer than the name, contains no space, and only word characters, whitespace and `-`; in particular no `/`, `.` or `,` |
| Sanitize.RemoveUnsafe | scrape_everything.py:72 | `re.sub(r"[^\w\s-]", "", s)`: a character occurs in the result exactly when it occurs in `s` and is a word character, whitespace or `-`; never longer than `s` (order and count are stated by `Sanitize.RemoveUnsafeInOrder`) |
| Sanitize.RemoveUnsafeIsFilter | scrape_everything.py:72 | the substitution is the order-preserving filter of the kept characters of `s` |
| Sanitize.RemoveUnsafeInOrder | scrape_everything.py:72 | the k-th character of the result is the character of `s` at the k-th kept position; those positions increase, and every position holding a kept character is among them, so the kept characters stay in place and in number |
| Sanitize.SpacesToUnderscores | scrape_everything.py:72 | `.replace(" ", "_")`: same length, no space left, each space becomes `_` and every other character stays |
| Sanitize.SanitizeCharacters | scrape_everything.py:72 | a character other than `_` occurs in the result exactly when it occurs in the name, is kept, and is not a space (so a tab survives); `_` occurs exactly when the name has `_` or a space |
| Sanitize.SanitizeIdempotent | scrape_everything.py:72 | sanitising a sanitised name changes nothing |
| Sanitize.SanitizeKeepsPlainNames | scrape_everything.py:72 | a name made only of word characters and `-` comes back unchanged |
| Sanitize.RemoveUnsafeKeepsKept | scrape_everything.py:72 | the substitution leaves a string of kept characters as it is |
| Sanitize.SanitizeRegionExample | scrape_ownership.py:157 | the region label `02 - Ilocos Region` becomes the directory `02_-_Ilocos_Region` |
| YearConfig.YearTableYears | scrape_everything.py:23-32 | the table lists exactly the years 2017 to 2024; the 2019 title keeps its capital `Of` |
| YearConfig.SortedYears | scrape_ownership.py:198 | `sorted(YEAR_CONFIG)`: strictly ascending, holding exactly the years of the table |
| YearConfig.PrmList | scrape_everything.py:78-80 | the `prm` list ends with the field `sbrep=` and the selector; `YearConfig.PrmListFields` reads back all nine fields |
| YearConfig.BuildPostUrl | scrape_everything.py:75-81 | succeeds exactly for years in the table, otherwise `KeyError(year)`; the URL starts with the portal prefix and ends with `sbrep=` and the configuration's selector |
| YearConfig.BuildOwnershipPostUrl | scrape_ownership.py:64-71 | the ownership script's URL is the configured one with the selector fixed to `E`, and so ends with `sbrep=E` |
| YearConfig.YearTableHasNoCaret | scrape_everything.py:23-32 | no seqn, title or gdate of the table contains the `^` field separator |
| YearConfig.PrmListFields | scrape_everything.py:78-80 | the `prm` list splits at `^` into nine fields `level, year, seqn, title, gdate, allfltr=0, prvslct=A, prvlist=, sbrep`, each reading back as its key and the value put in |
| YearConfig.PostUrlFields | scrape_everything.py:75-81 | for a listed year the URL reads back with the level, the year, the table's seqn, title (verbatim) and gdate, and the given selector, in that order |
| YearConfig.OwnershipPostUrlFields | scrape_ownership.py:64-71 | the ownership URL reads back with the table's seqn, title and gdate for the year and `sbrep=E` |
| Text.Strip | scrape_everything.py:64-65 | `str.strip()`: the result has no whitespace at either end and is never longer |
| Text.StripEmpty | scrape_everything.py:64-66 | a string strips to empty exactly when it is all whitespace |
| Text.StripSlice | scrape_everything.py:64-65 | the stripped string is a contiguous slice of the original, and everything before and after that slice is whitespace |
| Text.IntToDecimal | scrape_everything.py:79 | `str(year)` and `{level}`: a non-empty string of digits and `-`; for a non-negative number no `-` and no leading zero (`Text.DecimalRoundTrip` gives its value) |
| Text.Lower | scrape_everything.py:66 | `.lower()`: same length, each of `A`-`Z` becomes its own lowercase letter, every other character unchanged |
| Text.DecimalRoundTrip | scrape_everything.py:79 | the decimal rendering of a natural number (`str(year)`, `{level}`) reads back as that number |
| Text.SplitJoin | scrape_everything.py:79-80 | joining separator-free fields with `^` and splitting at `^` gives the fields back |
| Text.SplitAtFirstKey | scrape_everything.py:79 | `key=value` with an `=`-free key splits at its first `=` into key and value |
| Dropdown.SpellsNullIsLowerNull | scrape_everything.py:66 | the letter-by-letter test used by the model is `value.lower() == "null"` |
| Dropdown.KeptOptions | scrape_everything.py:62-68 | never more pairs than options; every pair has a non-empty stripped value and label and a value that is not `null` in any case |
| Dropdown.DropdownValues | scrape_everything.py:58-68 | a page without the `ddparams` select gives the empty list, not an error; every pair satisfies the filter |
| Dropdown.ExtractDropdownValues | scrape_everything.py:58-68 | the loop that appends each kept option computes exactly `DropdownValues` |
| Dropdown.KeptOptionsInOrder | scrape_ownership.py:55-61 | the k-th pair is the stripped option at the k-th kept position; those positions increase (document order, a subsequence); every option passing the test is among them |
| Tables.DataRows | scrape_everything.py:107-112 | the data rows are at most the table's rows and none is empty |
| Tables.DataRowsInOrder | scrape_everything.py:107-112 | the data rows are the cell lists of exactly the rows having a `td`/`th` cell, in document order |
| Tables.Qualifies | scrape_everything.py:113-114 | `len(data) < 2` skips the table, so a qualifying table has at least two rows |
| Tables.Frame | scrape_everything.py:113-115 | a written table has the first data row as header and the remaining rows as body, so its body has one row fewer than the data |
| Tables.JoinPath | scrape_everything.py:117 | `os.path.join(dir, c)`: one more component, or the same directory when `c` is empty |
| Tables.OwnershipPath | scrape_ownership.py:110-111 | the ownership file is `outdir/` + sanitised name + `.csv` |
| Tables.SaveOwnershipTables | scrape_ownership.py:95-115 | the count equals the number of qualifying tables; the warning is issued exactly when it is 0; the files are the ownership fold over the page's tables |
| Tables.OwnershipSaved | scrape_ownership.py:100-113 | the save loop as a fold: it adds at most the one ownership path and keeps every existing file |
| Tables.OwnershipSavedLast | scrape_ownership.py:100-111 | afterwards the one ownership file holds the last qualifying table and nothing else changed; with no qualifying table nothing changed |
| Tables.ReportLetter | scrape_everything.py:128-131 | a match yields an uppercase letter |
| Tables.ReportLetterOf | scrape_everything.py:128 | `treport`, a character, then any suffix matches exactly when the character is uppercase, and captures it |
| Tables.ReportLetterShape | scrape_everything.py:128 | an id that matches is `treport`, its letter, then the rest |
| Tables.TableLetter | scrape_everything.py:126-131 | only tables with class `RepT` are filed under a letter |
| Tables.CompletePath | scrape_everything.py:142-143 | the complete file is `outdir/` + sanitised place + `_TABLE_` + letter + `.csv` |
| Tables.CompletePathInjective | scrape_everything.py:142 | different letters name different files |
| Tables.CompleteSaved | scrape_everything.py:126-143 | the complete save loop as a fold: it keeps every existing file |
| Tables.SaveCompleteTables | scrape_everything.py:124-144 | the files after the loop are the complete fold over the page's tables |
| Tables.CompleteSavedAtLetter | scrape_everything.py:126-143 | the file of each letter holds the last qualifying `RepT` table with that letter, or is untouched when there is none |
| Tables.CompleteSavedElsewhere | scrape_everything.py:124-144 | no path other than a letter file of this place changes |
| Crawl.YearDir | scrape_everything.py:200 | the year directory is `out_dir/str(year)` |
| Crawl.YearDirsDisjoint | scrape_everything.py:200 | `str(year)` tells years apart, so no path lies inside the directories of two different years |
| Crawl.Level | scrape_everything.py:175 | every request level is 2, 3 or 4 (region, province, municipality) |
| Crawl.Dir | scrape_everything.py:187 | `os.path.join(parent, sanitize_filename(label))`: the parent directory with the sanitised label appended, or the parent itself when the label sanitises to empty |
| Crawl.Response | scrape_everything.py:174-176 | the page the request returns; `None` when the year is not in the table (the `KeyError`) or the request raises |
| Crawl.Succeeds | scrape_everything.py:173-178 | the `try` got through its save: only for a year of the table and only when the task's save does not raise |
| Crawl.Effect | scrape_everything.py:177-178 | a task that raises before or in its save leaves the files unchanged; one that succeeds applies its configured saver |
| Crawl.TaskRequest | scrape_ownership.py:130 | a task posts its option value to the URL of its level (2 region, 3 province, 4 municipality) and year, with the year's release fields; under the ownership configuration it is the ownership script's URL |
| Crawl.ChildTask | scrape_everything.py:203-204 | a child task is one level deeper than its parent |
| Crawl.ChildTasks | scrape_everything.py:190-191 | one child task per option |
| Crawl.Children | scrape_everything.py:172-206 | a municipality enqueues nothing; a task that enqueues anything fetched its page and saved its tables without raising; every child is one level deeper |
| Crawl.ChildrenOfOptions | scrape_ownership.py:160-161 | a region or province that got through its save enqueues exactly one child per dropdown option of its page, in option order, for the same year, inside its own directory |
| Crawl.ChildrenPlacement | scrape_ownership.py:143 | every child keeps its parent's year and has the parent's directory as its parent directory |
| Crawl.DirNesting | scrape_ownership.py:132 | a municipality under a province under a region saves into `out_dir/year/san(region)/san(province)/san(municipality)` |
| Crawl.QueueMeasure | scrape_everything.py:160-170 | running the head task and enqueueing its children lowers the (regions, provinces, municipalities) count of the queue lexicographically, so the model's worker stops |
| Crawl.DrainSplit | scrape_everything.py:157-170 | FIFO: every task already queued runs, in order, before anything those tasks enqueue |
| Crawl.DrainGenerations | scrape_everything.py:160-170 | the queue runs first, then the drain of all the children it enqueues |
| Crawl.ThreeWaves | scrape_everything.py:160-206 | a queue of region tasks runs as all regions, then all their provinces, then all their municipalities, and nothing else |
| Crawl.NationwideChoices | scrape_everything.py:211-212 | an unreadable nationwide file gives no options; every option passes the dropdown filter |
| Crawl.YearTasks | scrape_everything.py:211-213 | only region tasks, all of the given year |
| Crawl.RegionTasks | scrape_everything.py:212-213 | one region task per nationwide option, in option order, for the year |
| Crawl.YearsTasks | scrape_everything.py:221-222 | the initial queue holds only region tasks of the initialised years |
| Crawl.YearsTasksOrdered | scrape_ownership.py:198-199 | years initialised in ascending order queue their region tasks in non-decreasing year order |
| Crawl.InitialTasksOrdered | scrape_ownership.py:198-199 | every initial task has a year of the table, and years ascend along the queue |
| Crawl.SaversStayInDir | scrape_everything.py:102-144 | both savers change only paths inside the directory they are given |
| Crawl.EffectStaysInDir | scrape_everything.py:172-206 | a task changes only paths inside its own directory |
| Crawl.ExpandKeepsPlaced | scrape_everything.py:187-204 | children of a task inside its year's directory are again inside that directory |
| Crawl.DrainPlaced | scrape_everything.py:160-170 | every task the worker runs from the initial queue lies under its year's directory |
| Crawl.ApplyAllOutside | scrape_everything.py:172-206 | running such tasks leaves every path outside the year directories as it was |
| Crawl.CrawlWritesUnderYearDirs | scrape_everything.py:151-231 | the whole crawl writes only inside `out_dir/<year>` for the years of the table |
| Crawl.Crawler.Submit | scrape_everything.py:157-158 | appends the task to the end of the queue |
| Crawl.Crawler.ProcessYear | scrape_everything.py:208-215 | enqueues the year's region tasks after what is queued; nothing when the nationwide page cannot be read |
| Crawl.Crawler.SaveTables | scrape_everything.py:178 | the configured saver's fold over the page's tables |
| Crawl.Crawler.ProcessTask | scrape_everything.py:182-206 | enqueues exactly `Children` of the task and changes the files exactly by its `Effect`; a raise at any step ends the task there |
| Crawl.Crawler.SubmitChildren | scrape_everything.py:190-191 | enqueues one child task per option, in option order |
| Crawl.Crawler.Work | scrape_everything.py:160-170 | empties the queue, having run exactly `Drain` of the old queue in order, and leaves the files as those tasks' effects applied in that order |
| Crawl.Crawler.Run | scrape_everything.py:151-231 | initialises every year in ascending order, then runs exactly the drain of that initial queue; the files are its effects in that order |

## Left out

- HTTP sessions, headers, `raise_for_status` and `time.sleep` are not modelled. A request is the oracle `Env.fetch(url, value)`, and `None` stands for any exception it raises.
- Reading the nationwide HTML file is not modelled. It is the oracle `Env.nationwide(year)`, and `None` stands for a missing or unreadable file.
- BeautifulSoup/lxml parsing is not modelled. A page is already a `Page` value: its first `ddparams` select and its tables, with cell texts already stripped.
- Character classes are ASCII. `\w` is taken as ASCII letters, digits and `_`. `\s` and `str.strip` use Python's ASCII whitespace set, and `lower` folds only ASCII letters. Unicode behaviour is not modelled. In practice the model's `sanitize_filename` deletes the `ñ` of labels such as `Las Piñas` or `Parañaque` and deletes a no-break space, both of which Python's `\w`/`\s` keep. The model's `Strip` keeps a no-break space at either end, which `str.strip()` removes.
- Requests are assumed to return. The scripts call `session.post` without a timeout (scrape_everything.py:92, scrape_ownership.py:84). A stalled request blocks its worker, its `task_done()` never runs, and `task_queue.join()` never returns. `Crawl.QueueMeasure`, `Crawl.Crawler.Work` and `Crawl.Crawler.Run` prove termination only under the assumption that the oracle `Env.fetch` always answers.
- The pandas DataFrame and `to_csv` serialisation are not modelled. A write stores (header, body) at a path; how pandas pads short rows or handles duplicate column names is not captured.
- `os.makedirs`, the `ValueError` pandas raises when `pd.DataFrame(data[1:], columns=data[0])` is built from rows whose widest is not as wide as the header (scrape_everything.py:115 and :141, scrape_ownership.py:109), and the errors of `to_csv` are not modelled separately. Whether a task's save raises is the oracle `Env.saveFails(task)`, so it may depend on the directory and on the page. A save that raises is taken to raise before any file is written; partial writes by a saver that fails after its first file are not captured.
- `print` and the emoji logging are left out, apart from the ownership saver's "no valid tables" warning, which is the `warned` result.
- Threads, `MAX_WORKERS`, `task_done`/`join` and the `None` sentinels are left out. The crawl is one worker draining the FIFO queue, and all years are queued before the worker starts. With several workers the order in which tasks run (and so which of two same-named files is written last) can differ.
- `main` running the two configurations one after the other is left out. The configurations themselves are `Crawl.OwnershipConfig` and `Crawl.CompleteConfig`.
- `html_dir` and `max_workers` of `ScrapeConfig` are left out, because they only serve the left-out file reading and threads.
- Dropdown.ExtractDropdownValues: tests `value.lower() != "null"` letter by letter (`SpellsNull`); `Dropdown.SpellsNullIsLowerNull` proves the two tests agree.
- Crawl.Crawler.Run: assumes an empty queue at start, as in the scripts, where the queue is created fresh.

Three behaviours of the scripts shape the model:

- A page without the `ddparams` select gives no options rather than an error (scrape_everything.py:59-61).
- Every request opens its own `requests.Session` (scrape_everything.py:174, 184, 197); sessions carry no state the model needs.
- All years share one task queue (scrape_everything.py:155, 221-222), so the tasks of different years are interleaved only through that queue.

=== FILE: crawl.dfy ===
/**
 * The crawl of `run_scrape` (and of `run` in the ownership-only script).
 *
 * Each year's nationwide page yields one region task per dropdown option. A
 * region or province task requests its page, saves that page's tables, and
 * enqueues one child task per dropdown option of the page. A municipality
 * task only requests and saves. All of this runs inside one `try`, so a task
 * that raises skips its own subtree and nothing else.
 *
 * The worker threads are modelled as one worker draining a FIFO queue. The
 * outside world is an `Env` of oracles: the nationwide page of a year, the
 * page a POST returns (None when the request raises), and whether a task's
 * save raises, which may depend on its directory as well as on its page.
 */
module Crawl {
  import opened Wrappers
  import opened Text
  import opened Sanitize
  import opened YearConfig
  import opened Page
  import opened Dropdown
  import opened Tables
  import opened Seqs

  /** Which table saver a configuration uses. */
  datatype Flow = OwnershipFlow | CompleteFlow

  datatype ScrapeConfig = ScrapeConfig(name: string, outDir: Path, sbrep: string, flow: Flow)

  /** The two configurations the combined script runs; the ownership-only script is the first. */
  const OwnershipConfig := ScrapeConfig("Ownership", ["output_csv"], OwnershipSbrep, OwnershipFlow)
  const CompleteConfig := ScrapeConfig("Complete", ["complete_csv"], CompleteSbrep, CompleteFlow)

  /** A queued call: the year, the parent's output directory, the option value sent and its label. */
  datatype Task =
    | RegionTask(year: int, value: string, caption: string)
    | ProvinceTask(year: int, regionDir: Path, value: string, caption: string)
    | MunicipalityTask(year: int, provinceDir: Path, value: string, caption: string)

  /** The `level` of the task's request. */
  function Level(t: Task): (l: int)
    ensures 2 <= l <= 4
  {
    match t
    case RegionTask(_, _, _) => 2
    case ProvinceTask(_, _, _, _) => 3
    case MunicipalityTask(_, _, _, _) => 4
  }

  /** The outside world, as oracles. */
  datatype Env = Env(
    cfg: ScrapeConfig,
    nationwide: int -> Option<Page>,
    fetch: (string, string) -> Option<Page>,
    saveFails: Task -> bool)

  /** `out_dir/str(year)`. */
  function YearDir(cfg: ScrapeConfig, year: int): (p: Path)
    ensures p == cfg.outDir + [IntToDecimal(year)]
  {
    JoinPath(cfg.outDir, IntToDecimal(year))
  }

  /** `str(year)` tells years apart, so no path lies inside the directories of two different years. */
  lemma YearDirsDisjoint(cfg: ScrapeConfig, y1: nat, y2: nat, p: Path)
    requires YearDir(cfg, y1) <= p && YearDir(cfg, y2) <= p
    ensures y1 == y2
  {
    var n := |cfg.outDir|;
    assert YearDir(cfg, y1)[n] == p[n] == YearDir(cfg, y2)[n];
    DecimalRoundTrip(y1);
    DecimalRoundTrip(y2);
  }

  /** The directory a task's own directory is created in. */
  function ParentDir(cfg: ScrapeConfig, t: Task): Path {
    match t
    case RegionTask(year, _, _) => YearDir(cfg, year)
    case ProvinceTask(_, regionDir, _, _) => regionDir
    case MunicipalityTask(_, provinceDir, _, _) => provinceDir
  }

  /** The directory a task saves its tables into: its sanitised label inside its parent directory. */
  function Dir(cfg: ScrapeConfig, t: Task): (d: Path)
    ensures ParentDir(cfg, t) <= d
    ensures SanitizeFilename(t.caption) == "" ==> d == ParentDir(cfg, t)
    ensures SanitizeFilename(t.caption) != "" ==> |d| == |ParentDir(cfg, t)| + 1 && d[|d| - 1] == SanitizeFilename(t.caption)
  {
    JoinPath(ParentDir(cfg, t), SanitizeFilename(t.caption))
  }

  /** The page a task's request returns; None when building the URL or the request raises. */
  function Response(env: Env, t: Task): (r: Option<Page>)
    ensures t.year !in YearTable ==> r == None
  {
    var url := BuildPostUrl(Level(t), t.year, env.cfg.sbrep);
    if url.Failure? then None else env.fetch(url.value, t.value)
  }

  /** The task fetched its page and saved its tables without raising. */
  predicate Succeeds(env: Env, t: Task)
    ensures Succeeds(env, t) ==> t.year in YearTable && !env.saveFails(t)
  {
    Response(env, t).Some? && !env.saveFails(t)
  }

  /**
   * For a year of the table the task posts its option value to a URL whose
   * fields read back as the task's level (2, 3 or 4 for region, province,
   * municipality), its year and that year's release, ending with the
   * configuration's report selector; under the ownership configuration it
   * is the ownership script's URL.
   */
  lemma TaskRequest(env: Env, t: Task)
    requires t.year in YearTable && '^' !in env.cfg.sbrep
    ensures var url := BuildPostUrl(Level(t), t.year, env.cfg.sbrep);
      && url.Success?
      && Response(env, t) == env.fetch(url.value, t.value)
      && (env.cfg == OwnershipConfig ==> url == BuildOwnershipPostUrl(Level(t), t.year))
      && var e := YearTable[t.year];
        ParsePrm(url.value) == Some([
          ("level", IntToDecimal(Level(t))), ("year", IntToDecimal(t.year)),
          ("seqn", e.seqn), ("title", e.title), ("gdate", e.gdate),
          ("allfltr", "0"), ("prvslct", "A"), ("prvlist", ""), ("sbrep", env.cfg.sbrep)])
  {
    PostUrlFields(Level(t), t.year, env.cfg.sbrep);
  }

  /** The task a region or province enqueues for one of its page's options. */
  function ChildTask(t: Task, dir: Path, choice: (string, string)): (c: Task)
    requires !t.MunicipalityTask?
    ensures Level(c) == Level(t) + 1
  {
    if t.RegionTask? then ProvinceTask(t.year, dir, choice.0, choice.1)
    else MunicipalityTask(t.year, dir, choice.0, choice.1)
  }

  function ChildTasks(t: Task, dir: Path, choices: seq<(string, string)>): (cs: seq<Task>)
    requires !t.MunicipalityTask?
    ensures |cs| == |choices|
  {
    seq(|choices|, k requires 0 <= k < |choices| => ChildTask(t, dir, choices[k]))
  }

  /**
   * The tasks `t` enqueues: none for a municipality or for a task that
   * raised; otherwise one per option of its page, in option order, each one
   * level deeper, for the same year, inside `t`'s directory.
   */
  function Children(env: Env, t: Task): (cs: seq<Task>)
    ensures t.MunicipalityTask? ==> cs == []
    ensures cs != [] ==> Succeeds(env, t)
    ensures forall k :: 0 <= k < |cs| ==> Level(cs[k]) == Level(t) + 1
  {
    if t.MunicipalityTask? || !Succeeds(env, t) then []
    else ChildTasks(t, Dir(env.cfg, t), DropdownValues(Response(env, t).value))
  }

  /** A task that got through its save enqueues one child per option of its page, in option order. */
  lemma ChildrenOfOptions(env: Env, t: Task)
    requires Succeeds(env, t) && !t.MunicipalityTask?
    ensures var cs, choices := Children(env, t), DropdownValues(Response(env, t).value);
      && |cs| == |choices|
      && forall k :: 0 <= k < |cs| ==>
        && cs[k].year == t.year
        && ParentDir(env.cfg, cs[k]) == Dir(env.cfg, t)
        && (cs[k].value, cs[k].caption) == choices[k]
  {
  }

  /** Children keep the year and sit in their parent's directory. */
  lemma ChildrenPlacement(env: Env, t: Task)
    ensures forall k :: 0 <= k < |Children(env, t)| ==>
      Children(env, t)[k].year == t.year && ParentDir(env.cfg, Children(env, t)[k]) == Dir(env.cfg, t)
  {
  }

  /** What the task's saver does to the files, if the task gets as far as saving. */
  function Effect(env: Env, files: map<Path, Csv>, t: Task): (r: map<Path, Csv>)
    ensures !Succeeds(env, t) ==> r == files
  {
    if !Succeeds(env, t) then files
    else
      var page := Response(env, t).value;
      var dir := Dir(env.cfg, t);
      match env.cfg.flow
      case OwnershipFlow => OwnershipSaved(files, page.tables, OwnershipPath(dir, t.caption))
      case CompleteFlow => CompleteSaved(files, page.tables, dir, t.caption)
  }

  /** The files after the tasks of `log` have run, in order. */
  function ApplyAll(env: Env, files: map<Path, Csv>, log: seq<Task>): map<Path, Csv> {
    if log == [] then files
    else Effect(env, ApplyAll(env, files, log[..|log| - 1]), log[|log| - 1])
  }

  /** An expansion of tasks that only ever goes one level deeper. */
  ghost predicate Deepens(next: Task -> seq<Task>) {
    forall t, k :: 0 <= k < |next(t)| ==> Level(next(t)[k]) == Level(t) + 1
  }

  /** The crawl's expansion: what each task enqueues under `env`. */
  function Expand(env: Env): (next: Task -> seq<Task>)
    ensures Deepens(next)
    ensures forall t :: next(t) == Children(env, t)
  {
    t => Children(env, t)
  }

  /** The number of queued tasks at level `l`. */
  function CountLevel(q: seq<Task>, l: int): nat {
    if q == [] then 0 else (if Level(q[0]) == l then 1 else 0) + CountLevel(q[1..], l)
  }

  lemma {:induction false} CountLevelAppend(a: seq<Task>, b: seq<Task>, l: int)
    ensures CountLevel(a + b, l) == CountLevel(a, l) + CountLevel(b, l)
  {
    if a != [] {
      assert (a + b)[0] == a[0] && (a + b)[1..] == a[1..] + b;
      CountLevelAppend(a[1..], b, l);
    } else {
      assert a + b == b;
    }
  }

  lemma {:induction false} CountLevelAbsent(q: seq<Task>, l: int)
    requires forall k :: 0 <= k < |q| ==> Level(q[k]) != l
    ensures CountLevel(q, l) == 0
  {
    if q != [] {
      CountLevelAbsent(q[1..], l);
    }
  }

  /**
   * Running the head task and enqueueing its children lowers the queue's
   * (regions, provinces, municipalities) count lexicographically, because
   * every child is one level deeper than its parent and levels stop at 4.
   */
  lemma QueueMeasure(next: Task -> seq<Task>, q: seq<Task>)
    requires Deepens(next) && q != []
    ensures var q' := q[1..] + next(q[0]);
      && (Level(q[0]) == 2 ==> CountLevel(q', 2) < CountLevel(q, 2))
      && (Level(q[0]) == 3 ==> CountLevel(q', 2) == CountLevel(q, 2) && CountLevel(q', 3) < CountLevel(q, 3))
      && (Level(q[0]) == 4 ==> CountLevel(q', 2) == CountLevel(q, 2) && CountLevel(q', 3) == CountLevel(q, 3)
                                && CountLevel(q', 4) < CountLevel(q, 4))
  {
    var cs := next(q[0]);
    forall l | 2 <= l <= 4 ensures CountLevel(q[1..] + cs, l) == CountLevel(q[1..], l) + CountLevel(cs, l) {
      CountLevelAppend(q[1..], cs, l);
    }
    forall l | l <= Level(q[0]) ensures CountLevel(cs, l) == 0 {
      CountLevelAbsent(cs, l);
    }
  }

  /** The tasks a single worker runs, in order, starting from queue `q`. */
  function Drain(next: Task -> seq<Task>, q: seq<Task>): (r: seq<Task>)
    requires Deepens(next)
    decreases CountLevel(q, 2), CountLevel(q, 3), CountLevel(q, 4)
  {
    if q == [] then []
    else
      QueueMeasure(next, q);
      [q[0]] + Drain(next, q[1..] + next(q[0]))
  }

  /** The children of the tasks of `q`, in queue order. */
  function AllChildren(next: Task -> seq<Task>, q: seq<Task>): seq<Task> {
    if q == [] then [] else next(q[0]) + AllChildren(next, q[1..])
  }

  /**
   * FIFO order: everything queued runs first, in queue order, and only then
   * what those tasks enqueue.
   */
  lemma {:induction false} DrainSplit(next: Task -> seq<Task>, x: seq<Task>, y: seq<Task>)
    requires Deepens(next)
    ensures Drain(next, x + y) == x + Drain(next, y + AllChildren(next, x))
    decreases |x|
  {
    if x == [] {
      AppendShapes(y, [], []);
    } else {
      var a, ca := x[0], next(x[0]);
      var more := AllChildren(next, x[1..]);
      AppendShapes(x, y, []);
      AppendShapes(x[1..], y, ca);
      DrainSplit(next, x[1..], y + ca);
      AppendShapes(y, ca, more);
      AppendShapes([a], x[1..], []);
    }
  }

  /** The queue runs first, then everything it enqueues, generation by generation. */
  lemma DrainGenerations(next: Task -> seq<Task>, q: seq<Task>)
    requires Deepens(next)
    ensures Drain(next, q) == q + Drain(next, AllChildren(next, q))
  {
    DrainSplit(next, q, []);
    assert q + [] == q;
    assert [] + AllChildren(next, q) == AllChildren(next, q);
  }

  lemma {:induction false} AllChildrenLevels(next: Task -> seq<Task>, q: seq<Task>, l: int)
    requires Deepens(next)
    requires forall k :: 0 <= k < |q| ==> Level(q[k]) == l
    ensures forall k :: 0 <= k < |AllChildren(next, q)| ==> Level(AllChildren(next, q)[k]) == l + 1
  {
    if q != [] {
      AllChildrenLevels(next, q[1..], l);
      var a, b := next(q[0]), AllChildren(next, q[1..]);
      assert forall k :: 0 <= k < |a| ==> (a + b)[k] == a[k];
      assert forall k :: |a| <= k < |a + b| ==> (a + b)[k] == b[k - |a|];
    }
  }

  lemma {:induction false} AllChildrenOfMunicipalities(next: Task -> seq<Task>, q: seq<Task>)
    requires Deepens(next)
    requires forall k :: 0 <= k < |q| ==> Level(q[k]) == 4
    ensures AllChildren(next, q) == []
  {
    if q != [] {
      AllChildrenOfMunicipalities(next, q[1..]);
      assert forall k :: 0 <= k < |next(q[0])| ==> Level(next(q[0])[k]) == 5;
    }
  }

  /**
   * A queue of region tasks drains in three waves: the regions, then every
   * province they enqueue, then every municipality those enqueue; nothing follows.
   */
  lemma ThreeWaves(next: Task -> seq<Task>, q: seq<Task>)
    requires Deepens(next)
    requires forall k :: 0 <= k < |q| ==> q[k].RegionTask?
    ensures var provinces := AllChildren(next, q);
      Drain(next, q) == q + provinces + AllChildren(next, provinces)
  {
    var provinces := AllChildren(next, q);
    AllChildrenLevels(next, q, 2);
    var municipalities := AllChildren(next, provinces);
    AllChildrenLevels(next, provinces, 3);
    AllChildrenOfMunicipalities(next, municipalities);
    DrainGenerations(next, q);
    DrainGenerations(next, provinces);
    DrainGenerations(next, municipalities);
  }

  /** The options of a year's nationwide page; none when the page cannot be read. */
  function NationwideChoices(env: Env, year: int): (r: seq<(string, string)>)
    ensures env.nationwide(year).None? ==> r == []
    ensures forall k :: 0 <= k < |r| ==> IsChoice(r[k])
  {
    match env.nationwide(year)
    case None => []
    case Some(page) => DropdownValues(page)
  }

  /** One region task per option, in option order. */
  function RegionTasks(year: int, choices: seq<(string, string)>): (ts: seq<Task>)
    ensures |ts| == |choices|
    ensures forall k :: 0 <= k < |ts| ==> ts[k] == RegionTask(year, choices[k].0, choices[k].1)
  {
    seq(|choices|, k requires 0 <= k < |choices| => RegionTask(year, choices[k].0, choices[k].1))
  }

  /** The region tasks `process_year` enqueues for a year. */
  function YearTasks(env: Env, year: int): (ts: seq<Task>)
    ensures forall k :: 0 <= k < |ts| ==> ts[k].RegionTask? && ts[k].year == year
  {
    RegionTasks(year, NationwideChoices(env, year))
  }

  /** The region tasks of the years `ys`, year after year. */
  function YearsTasks(env: Env, ys: seq<int>): (ts: seq<Task>)
    ensures forall k :: 0 <= k < |ts| ==> ts[k].RegionTask? && ts[k].year in ys
  {
    if ys == [] then []
    else YearsTasks(env, ys[..|ys| - 1]) + YearTasks(env, ys[|ys| - 1])
  }

  /** The queue once every year has been initialised. */
  function InitialTasks(env: Env): seq<Task> {
    YearsTasks(env, SortedYears())
  }

  /** Years are initialised in ascending order, so region tasks are queued year by year. */
  predicate YearsAscend(ts: seq<Task>) {
    forall i, j :: 0 <= i < j < |ts| ==> ts[i].year <= ts[j].year
  }

  lemma AppendYearBlock(a: seq<Task>, b: seq<Task>, y: int)
    requires YearsAscend(a)
    requires forall k :: 0 <= k < |a| ==> a[k].year < y
    requires forall k :: 0 <= k < |b| ==> b[k].year == y
    ensures YearsAscend(a + b)
  {
    var ts := a + b;
    forall i, j | 0 <= i < j < |ts| ensures ts[i].year <= ts[j].year {
      if j < |a| {
        assert ts[i] == a[i] && ts[j] == a[j];
      } else if i < |a| {
        assert ts[i] == a[i] && ts[j] == b[j - |a|];
      } else {
        assert ts[i] == b[i - |a|] && ts[j] == b[j - |a|];
      }
    }
  }

  lemma {:induction false} YearsTasksOrdered(env: Env, ys: seq<int>)
    requires forall i, j :: 0 <= i < j < |ys| ==> ys[i] < ys[j]
    ensures YearsAscend(YearsTasks(env, ys))
  {
    if ys != [] {
      var front, y := ys[..|ys| - 1], ys[|ys| - 1];
      YearsTasksOrdered(env, front);
      var a := YearsTasks(env, front);
      forall k | 0 <= k < |a| ensures a[k].year < y {
        var j :| 0 <= j < |front| && front[j] == a[k].year;
        assert ys[j] == front[j];
      }
      AppendYearBlock(a, YearTasks(env, y), y);
    }
  }

  lemma InitialTasksOrdered(env: Env)
    ensures forall k :: 0 <= k < |InitialTasks(env)| ==> InitialTasks(env)[k].year in YearTable
    ensures YearsAscend(InitialTasks(env))
  {
    YearsTasksOrdered(env, SortedYears());
  }

  /** The nesting `out_dir/year/region/province/municipality` of the three task levels. */
  lemma DirNesting(env: Env, r: Task, p: Task, m: Task)
    requires r.RegionTask? && p in Children(env, r) && m in Children(env, p)
    ensures Dir(env.cfg, m) ==
      JoinPath(JoinPath(JoinPath(YearDir(env.cfg, r.year), SanitizeFilename(r.caption)),
        SanitizeFilename(p.caption)), SanitizeFilename(m.caption))
    ensures p.ProvinceTask? && m.MunicipalityTask? && m.year == p.year == r.year
  {
    var i :| 0 <= i < |Children(env, r)| && Children(env, r)[i] == p;
    var j :| 0 <= j < |Children(env, p)| && Children(env, p)[j] == m;
  }

  /** A task sits inside the directory of its own year. */
  predicate Placed(cfg: ScrapeConfig, t: Task) {
    YearDir(cfg, t.year) <= ParentDir(cfg, t)
  }

  /** `p` lies inside `out_dir/str(year)` for a year of the table. */
  predicate UnderYearDir(cfg: ScrapeConfig, p: Path) {
    exists y :: y in YearTable && YearDir(cfg, y) <= p
  }

  lemma JoinPathExtends(dir: Path, c: string)
    ensures dir <= JoinPath(dir, c)
  {
  }

  /** The savers write only inside the directory they are given. */
  lemma SaversStayInDir(files: map<Path, Csv>, tables: seq<Table>, dir: Path, caption: string, p: Path)
    requires !(dir <= p)
    ensures Lookup(OwnershipSaved(files, tables, OwnershipPath(dir, caption)), p) == Lookup(files, p)
    ensures Lookup(CompleteSaved(files, tables, dir, caption), p) == Lookup(files, p)
  {
    var path := OwnershipPath(dir, caption);
    assert dir <= path;
    OwnershipSavedLast(files, tables, path);
    forall c ensures p != CompletePath(dir, caption, c) {
      assert dir <= CompletePath(dir, caption, c);
    }
    CompleteSavedElsewhere(files, tables, dir, caption, p);
  }

  /** A task writes only inside its own directory. */
  lemma {:induction false} EffectStaysInDir(env: Env, files: map<Path, Csv>, t: Task, p: Path)
    requires !(Dir(env.cfg, t) <= p)
    ensures Lookup(Effect(env, files, t), p) == Lookup(files, p)
  {
    if Succeeds(env, t) {
      SaversStayInDir(files, Response(env, t).value.tables, Dir(env.cfg, t), t.caption, p);
    }
  }

  /** A task of a table year that sits inside its year's directory. */
  predicate PlacedTask(cfg: ScrapeConfig, t: Task) {
    t.year in YearTable && Placed(cfg, t)
  }

  /** The expansion only produces placed tasks from placed ones. */
  ghost predicate KeepsPlaced(cfg: ScrapeConfig, next: Task -> seq<Task>) {
    forall t, c :: PlacedTask(cfg, t) && c in next(t) ==> PlacedTask(cfg, c)
  }

  /** Children keep the year and nest in their parent's directory, so they stay placed. */
  lemma ExpandKeepsPlaced(env: Env)
    ensures KeepsPlaced(env.cfg, Expand(env))
  {
    forall t, c | PlacedTask(env.cfg, t) && c in Children(env, t)
      ensures PlacedTask(env.cfg, c)
    {
      ChildrenPlacement(env, t);
      JoinPathExtends(ParentDir(env.cfg, t), SanitizeFilename(t.caption));
    }
  }

  /** Every task the worker runs from a queue of placed tasks is placed. */
  lemma {:induction false} DrainPlaced(cfg: ScrapeConfig, next: Task -> seq<Task>, q: seq<Task>)
    requires Deepens(next) && KeepsPlaced(cfg, next)
    requires forall t :: t in q ==> PlacedTask(cfg, t)
    ensures forall t :: t in Drain(next, q) ==> PlacedTask(cfg, t)
    decreases CountLevel(q, 2), CountLevel(q, 3), CountLevel(q, 4)
  {
    if q != [] {
      QueueMeasure(next, q);
      var rest := q[1..] + next(q[0]);
      assert forall t :: t in q[1..] ==> t in q;
      DrainPlaced(cfg, next, rest);
    }
  }

  /** Running placed tasks leaves every path outside the year directories as it was. */
  lemma {:induction false} ApplyAllOutside(env: Env, files: map<Path, Csv>, log: seq<Task>, p: Path)
    requires forall t :: t in log ==> PlacedTask(env.cfg, t)
    requires !UnderYearDir(env.cfg, p)
    ensures Lookup(ApplyAll(env, files, log), p) == Lookup(files, p)
  {
    if log != [] {
      var t := log[|log| - 1];
      assert t in log && forall u :: u in log[..|log| - 1] ==> u in log;
      ApplyAllOutside(env, files, log[..|log| - 1], p);
      JoinPathExtends(ParentDir(env.cfg, t), SanitizeFilename(t.caption));
      assert !(Dir(env.cfg, t) <= p);
      EffectStaysInDir(env, ApplyAll(env, files, log[..|log| - 1]), t, p);
    }
  }

  /** The whole crawl writes only inside `out_dir/<year>` for the years of the table. */
  lemma CrawlWritesUnderYearDirs(env: Env, files: map<Path, Csv>, p: Path)
    requires !UnderYearDir(env.cfg, p)
    ensures Lookup(ApplyAll(env, files, Drain(Expand(env), InitialTasks(env))), p) == Lookup(files, p)
  {
    var q := InitialTasks(env);
    InitialTasksOrdered(env);
    ExpandKeepsPlaced(env);
    DrainPlaced(env.cfg, Expand(env), q);
    ApplyAllOutside(env, files, Drain(Expand(env), q), p);
  }

  /** The single worker over a shared FIFO queue, and the file system the tasks write to. */
  class Crawler {
    const env: Env
    const fs: FileSystem
    var queue: seq<Task>
    /** The tasks run so far, in order. */
    ghost var log: seq<Task>

    constructor (env: Env, fs: FileSystem)
      ensures this.env == env && this.fs == fs
      ensures queue == [] && log == []
    {
      this.env := env;
      this.fs := fs;
      queue := [];
      log := [];
    }

    /** `submit`: append a task to the queue. */
    method Submit(t: Task)
      modifies this
      ensures queue == old(queue) + [t]
      ensures log == old(log)
    {
      queue := queue + [t];
    }

    /** `process_year`: enqueue one region task per option of the year's nationwide page. */
    method ProcessYear(year: int)
      modifies this
      ensures queue == old(queue) + YearTasks(env, year)
      ensures log == old(log)
    {
      var entry := env.nationwide(year);
      if entry.None? {
        return;
      }
      var choices := ExtractDropdownValues(entry.value);
      assert choices == NationwideChoices(env, year);
      ghost var tasks := RegionTasks(year, choices);
      for i := 0 to |choices|
        invariant queue == old(queue) + tasks[..i]
        invariant log == old(log)
      {
        PrefixSnoc(old(queue), tasks, i);
        Submit(RegionTask(year, choices[i].0, choices[i].1));
      }
      assert tasks[..|choices|] == tasks;
    }

    /** Runs the saver of the configuration on a fetched page. */
    method SaveTables(page: Page, dir: Path, caption: string)
      modifies fs
      ensures fs.files == match env.cfg.flow
        case OwnershipFlow => OwnershipSaved(old(fs.files), page.tables, OwnershipPath(dir, caption))
        case CompleteFlow => CompleteSaved(old(fs.files), page.tables, dir, caption)
    {
      match env.cfg.flow
      case OwnershipFlow =>
        var count, warned := SaveOwnershipTables(fs, page, dir, caption);
      case CompleteFlow =>
        SaveCompleteTables(fs, page, dir, caption);
    }

    /**
     * `process_region`, `process_province` and `process_municipality`: request
     * the page, save its tables, then enqueue the children; any step that
     * raises ends the task there.
     */
    method ProcessTask(t: Task)
      modifies this, fs
      ensures queue == old(queue) + Children(env, t)
      ensures fs.files == Effect(env, old(fs.files), t)
      ensures log == old(log)
    {
      var url := BuildPostUrl(Level(t), t.year, env.cfg.sbrep);
      if url.Failure? {
        return;
      }
      var response := env.fetch(url.value, t.value);
      if response.None? {
        return;
      }
      var page := response.value;
      var dir := JoinPath(ParentDir(env.cfg, t), SanitizeFilename(t.caption));
      if env.saveFails(t) {
        return;
      }
      assert Response(env, t) == response && dir == Dir(env.cfg, t);
      SaveTables(page, dir, t.caption);
      if t.MunicipalityTask? {
        return;
      }
      var choices := ExtractDropdownValues(page);
      SubmitChildren(t, dir, choices);
    }

    /** The loop that submits one child task per option. */
    method SubmitChildren(t: Task, dir: Path, choices: seq<(string, string)>)
      requires !t.MunicipalityTask?
      modifies this
      ensures queue == old(queue) + ChildTasks(t, dir, choices)
      ensures log == old(log)
    {
      ghost var tasks := ChildTasks(t, dir, choices);
      for i := 0 to |choices|
        invariant queue == old(queue) + tasks[..i]
        invariant log == old(log)
      {
        PrefixSnoc(old(queue), tasks, i);
        Submit(ChildTask(t, dir, choices[i]));
      }
      assert tasks[..|choices|] == tasks;
    }

    /** `worker`: take tasks from the front of the queue and run them until it is empty. */
    method Work()
      modifies this, fs
      ensures queue == []
      ensures log == old(log) + Drain(Expand(env), old(queue))
      ensures fs.files == ApplyAll(env, old(fs.files), Drain(Expand(env), old(queue)))
    {
      ghost var next := Expand(env);
      ghost var done: seq<Task> := [];
      while queue != []
        invariant done + Drain(next, queue) == Drain(next, old(queue))
        invariant log == old(log) + done
        invariant fs.files == ApplyAll(env, old(fs.files), done)
        decreases CountLevel(queue, 2), CountLevel(queue, 3), CountLevel(queue, 4)
      {
        QueueMeasure(next, queue);
        ghost var before := done;
        var t := queue[0];
        AppendShapes(done, [t], Drain(next, queue[1..] + next(t)));
        queue := queue[1..];
        ProcessTask(t);
        log := log + [t];
        done := done + [t];
        assert done[..|done| - 1] == before;
      }
      AppendShapes(done, [], []);
    }

    /** `run`: initialise every year in ascending order, then let the worker drain the queue. */
    method Run()
      modifies this, fs
      requires queue == []
      ensures queue == []
      ensures log == old(log) + Drain(Expand(env), InitialTasks(env))
      ensures fs.files == ApplyAll(env, old(fs.files), Drain(Expand(env), InitialTasks(env)))
    {
      var years := SortedYears();
      for i := 0 to |years|
        invariant queue == YearsTasks(env, years[..i])
        invariant log == old(log)
        invariant fs.files == old(fs.files)
      {
        assert years[..i + 1][..i] == years[..i];
        ProcessYear(years[i]);
      }
      assert years[..|years|] == years;
      Work();
    }
  }
}

=== FILE: dropdown.dfy ===
/**
 * `extract_dropdown_values`: the (value, label) pairs of the `ddparams`
 * options, both stripped, keeping only options whose value and label are
 * non-empty and whose value is not "null" in any letter case.
 */
module Dropdown {
  import opened Wrappers
  import opened Text
  import opened Page
  import opened Seqs

  /** An option's value (empty when the attribute is missing) and its text, both stripped. */
  function Stripped(o: OptionElem): (string, string) {
    (Strip(o.value.GetOr("")), Strip(o.text))
  }

  /** `s` reads "null" in some mix of letter cases. */
  predicate SpellsNull(s: string) {
    |s| == 4 && LowerChar(s[0]) == 'n' && LowerChar(s[1]) == 'u' && LowerChar(s[2]) == 'l' && LowerChar(s[3]) == 'l'
  }

  /** The letter-by-letter test is lower-casing and comparing with "null". */
  lemma SpellsNullIsLowerNull(s: string)
    ensures SpellsNull(s) <==> Lower(s) == "null"
  {
    if SpellsNull(s) {
      assert Lower(s) == [LowerChar(s[0]), LowerChar(s[1]), LowerChar(s[2]), LowerChar(s[3])];
    }
    if Lower(s) == "null" {
      assert Lower(s)[0] == 'n' && Lower(s)[1] == 'u' && Lower(s)[2] == 'l' && Lower(s)[3] == 'l';
    }
  }

  /** The loop's test: value and text non-empty once stripped, and the value not "null" in any letter case. */
  predicate Keeps(o: OptionElem) {
    var (value, text) := Stripped(o);
    value != "" && text != "" && !SpellsNull(value)
  }

  /** Non-empty and free of surrounding whitespace. */
  predicate IsStrippedText(s: string) {
    s != [] && !IsSpace(s[0]) && !IsSpace(s[|s| - 1])
  }

  /** What every returned pair satisfies. */
  predicate IsChoice(p: (string, string)) {
    IsStrippedText(p.0) && IsStrippedText(p.1) && !SpellsNull(p.0)
  }

  lemma KeptIsChoice(o: OptionElem)
    requires Keeps(o)
    ensures IsChoice(Stripped(o))
  {
  }

  /** The kept options of `opts`, stripped, in document order. */
  function KeptOptions(opts: seq<OptionElem>): (r: seq<(string, string)>)
    ensures |r| <= |opts|
    ensures forall k :: 0 <= k < |r| ==> IsChoice(r[k])
  {
    forall o | Keeps(o) ensures IsChoice(Stripped(o)) {
      KeptIsChoice(o);
    }
    FilterMapAll(opts, Keeps, Stripped, IsChoice);
    FilterMap(opts, Keeps, Stripped)
  }

  /** The result of `extract_dropdown_values` on a page; a page without the control gives no choices. */
  function DropdownValues(page: Page): (r: seq<(string, string)>)
    ensures page.ddparams.None? ==> r == []
    ensures forall k :: 0 <= k < |r| ==> IsChoice(r[k])
  {
    match page.ddparams
    case None => []
    case Some(sel) => KeptOptions(sel.options)
  }

  /** `extract_dropdown_values`: the filtering loop that appends each kept option. */
  method ExtractDropdownValues(page: Page) returns (options: seq<(string, string)>)
    ensures options == DropdownValues(page)
  {
    if page.ddparams.None? {
      return [];
    }
    var opts := page.ddparams.value.options;
    options := [];
    for i := 0 to |opts|
      invariant options == FilterMap(opts[..i], Keeps, Stripped)
    {
      FilterMapSnoc(opts, Keeps, Stripped, i);
      var value := Strip(opts[i].value.GetOr(""));
      var text := Strip(opts[i].text);
      if value != "" && text != "" && !SpellsNull(value) {
        options := options + [(value, text)];
      }
    }
    assert opts[..|opts|] == opts;
    assert options == KeptOptions(opts);
  }

  /**
   * The choices are the options that pass the test, in document order: the
   * k-th choice is the stripped option at the k-th kept position, those
   * positions increase, and every option that passes has its position among them.
   */
  lemma KeptOptionsInOrder(opts: seq<OptionElem>)
    ensures var r, idx := KeptOptions(opts), Accepted(opts, Keeps);
      && |r| == |idx|
      && (forall k :: 0 <= k < |idx| ==> Keeps(opts[idx[k]]) && r[k] == Stripped(opts[idx[k]]))
      && (forall k, l :: 0 <= k < l < |idx| ==> idx[k] < idx[l])
      && (forall j :: 0 <= j < |opts| && Keeps(opts[j]) ==> j in idx)
  {
    FilterMapAt(opts, Keeps, Stripped);
    AcceptedIncrease(opts, Keeps);
    AcceptedComplete(opts, Keeps);
  }
}

=== FILE: page.dfy ===
/**
 * A parsed report page, reduced to what the scraper reads from it: the
 * `select[name=ddparams]` control with its options, and the tables with
 * their classes, id and rows. Cell texts are already stripped, as
 * `get_text(strip=True)` returns them.
 */
module Page {
  import opened Wrappers

  /** An `<option>`: its `value` attribute, if present, and its text. */
  datatype OptionElem = OptionElem(value: Option<string>, text: string)

  /** The `ddparams` selection control, its options in document order. */
  datatype Select = Select(options: seq<OptionElem>)

  /** A `<tr>`: the texts of its `td` and `th` cells, in document order. */
  datatype Row = Row(cells: seq<string>)

  /** A `<table>`: its class list, its `id` attribute if present, its rows. */
  datatype Table = Table(classes: seq<string>, id: Option<string>, rows: seq<Row>)

  /** The first `select[name=ddparams]` of the page, if any, and every table in document order. */
  datatype Page = Page(ddparams: Option<Select>, tables: seq<Table>)
}

=== FILE: sanitize.dfy ===
/**
 * `sanitize_filename`: deletes every character matched by `[^\w\s-]` and then
 * turns each space into an underscore. The result names every output
 * directory and CSV file of the crawl.
 */
module Sanitize {
  import opened Text
  import opened Seqs

  /** The characters `[^\w\s-]` does not match, so the substitution keeps them. */
  predicate IsKept(c: char) {
    IsWordChar(c) || IsSpace(c) || c == '-'
  }

  /** `re.sub(r"[^\w\s-]", "", s)`: the kept characters of `s`, in order. */
  function RemoveUnsafe(s: string): (r: string)
    ensures |r| <= |s|
    ensures forall c :: c in r <==> c in s && IsKept(c)
  {
    if s == [] then []
    else (if IsKept(s[0]) then [s[0]] else []) + RemoveUnsafe(s[1..])
  }

  /** `s.replace(" ", "_")`. */
  function SpacesToUnderscores(s: string): (r: string)
    ensures |r| == |s| && ' ' !in r
    ensures forall i :: 0 <= i < |s| ==> (s[i] == ' ' ==> r[i] == '_') && (s[i] != ' ' ==> r[i] == s[i])
  {
    seq(|s|, i requires 0 <= i < |s| => if s[i] == ' ' then '_' else s[i])
  }

  function SanitizeFilename(name: string): (r: string)
    ensures |r| <= |name|
    ensures ' ' !in r
    ensures forall c :: c in r ==> IsKept(c)
    ensures '/' !in r && '.' !in r && ',' !in r
  {
    var kept := RemoveUnsafe(name);
    var r := SpacesToUnderscores(kept);
    assert forall i :: 0 <= i < |r| ==> r[i] == '_' || r[i] == kept[i];
    r
  }

  /**
   * Which characters occur in the sanitised name: any character other than `_`
   * occurs exactly when it occurs in `name`, is kept and is not a space (so a
   * tab survives); `_` occurs exactly when `name` holds an underscore or a space.
   */
  lemma SanitizeCharacters(name: string, c: char)
    ensures c != '_' ==> (c in SanitizeFilename(name) <==> c in name && IsKept(c) && c != ' ')
    ensures '_' in SanitizeFilename(name) <==> '_' in name || ' ' in name
  {
    var kept := RemoveUnsafe(name);
    var r := SanitizeFilename(name);
    assert forall i :: 0 <= i < |r| ==> r[i] == if kept[i] == ' ' then '_' else kept[i];
    if c != '_' && c in name && IsKept(c) && c != ' ' {
      assert c in kept;
      var i :| 0 <= i < |kept| && kept[i] == c;
      assert r[i] == c;
    }
    if ' ' in name {
      assert ' ' in kept;
      var i :| 0 <= i < |kept| && kept[i] == ' ';
      assert r[i] == '_';
    }
    if '_' in name {
      assert '_' in kept;
      var i :| 0 <= i < |kept| && kept[i] == '_';
      assert r[i] == '_';
    }
    if '_' in r {
      var i :| 0 <= i < |r| && r[i] == '_';
      assert kept[i] in name;
    }
  }

  /** A string made of kept characters only passes through the substitution unchanged. */
  lemma {:induction false} RemoveUnsafeKeepsKept(s: string)
    requires forall i :: 0 <= i < |s| ==> IsKept(s[i])
    ensures RemoveUnsafe(s) == s
  {
    if s != [] {
      RemoveUnsafeKeepsKept(s[1..]);
      assert [s[0]] + s[1..] == s;
    }
  }

  /** Extending the name by one character extends the substitution's result by it when it is kept. */
  lemma {:induction false} RemoveUnsafeSnoc(s: string, c: char)
    ensures RemoveUnsafe(s + [c]) == RemoveUnsafe(s) + (if IsKept(c) then [c] else [])
  {
    if s != [] {
      assert (s + [c])[1..] == s[1..] + [c];
      RemoveUnsafeSnoc(s[1..], c);
    }
  }

  function Identity(c: char): char { c }

  /** The substitution is the order-preserving filter of the kept characters. */
  lemma {:induction false} RemoveUnsafeIsFilter(s: string)
    ensures RemoveUnsafe(s) == FilterMap(s, IsKept, Identity)
  {
    if s != [] {
      var front := s[..|s| - 1];
      RemoveUnsafeIsFilter(front);
      RemoveUnsafeSnoc(front, s[|s| - 1]);
      assert front + [s[|s| - 1]] == s;
    }
  }

  /**
   * The k-th character of the result is the name's character at the k-th kept
   * position; those positions increase, and every kept position is among them.
   */
  lemma RemoveUnsafeInOrder(s: string)
    ensures var r, idx := RemoveUnsafe(s), Accepted(s, IsKept);
      && |r| == |idx|
      && (forall k :: 0 <= k < |idx| ==> IsKept(s[idx[k]]) && r[k] == s[idx[k]])
      && (forall k, l :: 0 <= k < l < |idx| ==> idx[k] < idx[l])
      && (forall j :: 0 <= j < |s| && IsKept(s[j]) ==> j in idx)
  {
    RemoveUnsafeIsFilter(s);
    FilterMapAt(s, IsKept, Identity);
    AcceptedIncrease(s, IsKept);
    AcceptedComplete(s, IsKept);
  }

  /** Sanitising twice is the same as sanitising once. */
  lemma SanitizeIdempotent(name: string)
    ensures SanitizeFilename(SanitizeFilename(name)) == SanitizeFilename(name)
  {
    var r := SanitizeFilename(name);
    assert forall i :: 0 <= i < |r| ==> r[i] in r;
    RemoveUnsafeKeepsKept(r);
    assert SpacesToUnderscores(r) == r;
  }

  /** A name made only of word characters and hyphens is already a file name. */
  lemma SanitizeKeepsPlainNames(name: string)
    requires forall c :: c in name ==> IsWordChar(c) || c == '-'
    ensures SanitizeFilename(name) == name
  {
    assert forall i :: 0 <= i < |name| ==> name[i] in name;
    RemoveUnsafeKeepsKept(name);
    forall i | 0 <= i < |name| ensures SpacesToUnderscores(name)[i] == name[i] {
      assert name[i] in name;
    }
  }

  lemma RegionExampleKept(s: string)
    requires s == "02 - Ilocos Region"
    ensures RemoveUnsafe(s) == s
  {
    forall i | 0 <= i < |s| ensures IsKept(s[i]) {}
    RemoveUnsafeKeepsKept(s);
  }

  lemma RegionExampleSpaces(s: string)
    requires s == "02 - Ilocos Region"
    ensures SpacesToUnderscores(s) == "02_-_Ilocos_Region"
  {
    var t := "02_-_Ilocos_Region";
    assert |SpacesToUnderscores(s)| == |t|;
    forall i | 0 <= i < |s| ensures SpacesToUnderscores(s)[i] == t[i] {}
  }

  /** The region label used as an example for the output layout. */
  lemma SanitizeRegionExample(s: string)
    requires s == "02 - Ilocos Region"
    ensures SanitizeFilename(s) == "02_-_Ilocos_Region"
  {
    RegionExampleKept(s);
    RegionExampleSpaces(s);
  }
}

=== FILE: seqs.dfy ===
/**
 * Order-preserving filters over sequences: the shape shared by the option
 * loop and the row and table filters. Each is specified by the positions it
 * accepts, and those positions are proved increasing and complete.
 */
module Seqs {
  import opened Wrappers

  /** The images under `f` of the elements of `xs` that `keep` accepts, in order. */
  function FilterMap<T, U>(xs: seq<T>, keep: T -> bool, f: T -> U): (r: seq<U>)
    ensures |r| <= |xs|
  {
    if xs == [] then []
    else
      var last := xs[|xs| - 1];
      FilterMap(xs[..|xs| - 1], keep, f) + (if keep(last) then [f(last)] else [])
  }

  /** The positions of the elements of `xs` that `keep` accepts, in order. */
  function Accepted<T>(xs: seq<T>, keep: T -> bool): (r: seq<nat>)
    ensures forall k :: 0 <= k < |r| ==> r[k] < |xs| && keep(xs[r[k]])
  {
    if xs == [] then []
    else Accepted(xs[..|xs| - 1], keep) + (if keep(xs[|xs| - 1]) then [|xs| - 1] else [])
  }

  /** The k-th result is the image of the element at the k-th accepted position. */
  lemma {:induction false} FilterMapAt<T, U>(xs: seq<T>, keep: T -> bool, f: T -> U)
    ensures |FilterMap(xs, keep, f)| == |Accepted(xs, keep)|
    ensures forall k :: 0 <= k < |Accepted(xs, keep)| ==>
      FilterMap(xs, keep, f)[k] == f(xs[Accepted(xs, keep)[k]])
  {
    if xs != [] {
      var front := xs[..|xs| - 1];
      FilterMapAt(front, keep, f);
      var idx := Accepted(front, keep);
      assert forall k :: 0 <= k < |idx| ==> xs[idx[k]] == front[idx[k]];
    }
  }

  /** Extending the input by one element extends the result by its image when it is accepted. */
  lemma FilterMapSnoc<T, U>(xs: seq<T>, keep: T -> bool, f: T -> U, i: nat)
    requires i < |xs|
    ensures FilterMap(xs[..i + 1], keep, f) == FilterMap(xs[..i], keep, f) + (if keep(xs[i]) then [f(xs[i])] else [])
  {
    assert xs[..i + 1][..i] == xs[..i];
  }

  /** When everything `keep` accepts maps to a value satisfying `p`, every result satisfies `p`. */
  lemma {:induction false} FilterMapAll<T, U>(xs: seq<T>, keep: T -> bool, f: T -> U, p: U -> bool)
    requires forall x :: keep(x) ==> p(f(x))
    ensures forall k :: 0 <= k < |FilterMap(xs, keep, f)| ==> p(FilterMap(xs, keep, f)[k])
  {
    if xs != [] {
      FilterMapAll(xs[..|xs| - 1], keep, f, p);
    }
  }

  /** The accepted positions strictly increase. */
  lemma {:induction false} AcceptedIncrease<T>(xs: seq<T>, keep: T -> bool)
    ensures forall k, l :: 0 <= k < l < |Accepted(xs, keep)| ==> Accepted(xs, keep)[k] < Accepted(xs, keep)[l]
  {
    if xs != [] {
      AcceptedIncrease(xs[..|xs| - 1], keep);
    }
  }

  /** Every accepted element has its position listed. */
  lemma {:induction false} AcceptedComplete<T>(xs: seq<T>, keep: T -> bool)
    ensures forall j :: 0 <= j < |xs| && keep(xs[j]) ==> j in Accepted(xs, keep)
  {
    if xs != [] {
      var front := xs[..|xs| - 1];
      AcceptedComplete(front, keep);
      assert forall j :: 0 <= j < |front| ==> front[j] == xs[j];
    }
  }

  /** The position of the last element `keep` accepts, if any. */
  function LastAccepted<T>(xs: seq<T>, keep: T -> bool): (r: Option<nat>)
    ensures r.Some? ==> r.value < |xs| && keep(xs[r.value])
    ensures r.Some? ==> forall k :: r.value < k < |xs| ==> !keep(xs[k])
    ensures r.None? ==> forall k :: 0 <= k < |xs| ==> !keep(xs[k])
  {
    if xs == [] then None
    else if keep(xs[|xs| - 1]) then Some(|xs| - 1)
    else LastAccepted(xs[..|xs| - 1], keep)
  }

  /** Regrouping of concatenations, and the head and tail of a concatenation. */
  lemma AppendShapes<T>(a: seq<T>, b: seq<T>, c: seq<T>)
    ensures a + b + c == a + (b + c)
    ensures a != [] ==> (a + b)[0] == a[0] && (a + b)[1..] == a[1..] + b
    ensures [] + a == a && a + [] == a
  {
  }

  /** Appending the next element of `s` to a prefix of it extends the prefix by one. */
  lemma PrefixSnoc<T>(a: seq<T>, s: seq<T>, i: nat)
    requires i < |s|
    ensures a + s[..i] + [s[i]] == a + s[..i + 1]
  {
    assert s[..i + 1] == s[..i] + [s[i]];
  }
}

=== FILE: tables.dfy ===
/**
 * The two table savers and the file system they write into.
 *
 * Both savers share the row logic: the rows of a table that have at least
 * one cell are its data rows, a table with fewer than two of them writes
 * nothing, and otherwise the first data row is the header and the rest are
 * the body. The ownership saver writes every qualifying table of the page to
 * the same file; the complete saver writes the `RepT` tables whose id starts
 * with `treport` and a capital letter, one file per letter.
 */
module Tables {
  import opened Wrappers
  import opened Text
  import opened Sanitize
  import opened Page
  import opened Seqs

  /** A file-system path as its list of components. */
  type Path = seq<string>

  /** `os.path.join(dir, c)`: an empty component leaves the directory as it is. */
  function JoinPath(dir: Path, c: string): (p: Path)
    ensures c == "" ==> p == dir
    ensures c != "" ==> |p| == |dir| + 1 && p[..|dir|] == dir && p[|dir|] == c
  {
    if c == "" then dir else dir + [c]
  }

  /** What a saved CSV file holds: a header line and the body rows. */
  datatype Csv = Csv(header: seq<string>, body: seq<seq<string>>)

  /** The files written so far, by path; writing a path again replaces its content. */
  class FileSystem {
    var files: map<Path, Csv>

    constructor ()
      ensures files == map[]
    {
      files := map[];
    }
  }

  predicate HasCells(r: Row) {
    r.cells != []
  }

  function CellTexts(r: Row): seq<string> {
    r.cells
  }

  /** The rows with at least one `td`/`th` cell, as their cell texts, in order. */
  function DataRows(t: Table): (rows: seq<seq<string>>)
    ensures |rows| <= |t.rows|
    ensures forall k :: 0 <= k < |rows| ==> rows[k] != []
  {
    FilterMapAll(t.rows, HasCells, CellTexts, (cells: seq<string>) => cells != []);
    FilterMap(t.rows, HasCells, CellTexts)
  }

  /** A table is written only when it has at least two data rows. */
  predicate Qualifies(t: Table)
    ensures Qualifies(t) ==> |t.rows| >= 2
  {
    |DataRows(t)| >= 2
  }

  /** The frame of a qualifying table: the first data row heads the remaining ones. */
  function Frame(t: Table): (csv: Csv)
    requires Qualifies(t)
    ensures [csv.header] + csv.body == DataRows(t)
    ensures |csv.body| == |DataRows(t)| - 1
  {
    var data := DataRows(t);
    assert [data[0]] + data[1..] == data;
    Csv(data[0], data[1..])
  }

  /** The data rows are the rows that have cells, in document order, and all of those rows. */
  lemma DataRowsInOrder(t: Table)
    ensures var rows, idx := DataRows(t), Accepted(t.rows, HasCells);
      && |rows| == |idx|
      && (forall k :: 0 <= k < |idx| ==> t.rows[idx[k]].cells != [] && rows[k] == t.rows[idx[k]].cells)
      && (forall k, l :: 0 <= k < l < |idx| ==> idx[k] < idx[l])
      && (forall j :: 0 <= j < |t.rows| && t.rows[j].cells != [] ==> j in idx)
  {
    FilterMapAt(t.rows, HasCells, CellTexts);
    AcceptedIncrease(t.rows, HasCells);
    AcceptedComplete(t.rows, HasCells);
  }

  /** Where `extract_and_save_tables` writes: the sanitised name with `.csv`, in `outdir`. */
  function OwnershipPath(outdir: Path, name: string): (p: Path)
    ensures p == outdir + [SanitizeFilename(name) + ".csv"]
  {
    JoinPath(outdir, SanitizeFilename(name) + ".csv")
  }

  /** The files after writing, in order, every qualifying table of `tables` to `path`. */
  function OwnershipSaved(files: map<Path, Csv>, tables: seq<Table>, path: Path): (r: map<Path, Csv>)
    ensures r.Keys <= files.Keys + {path}
    ensures files.Keys <= r.Keys
  {
    if tables == [] then files
    else
      var before := OwnershipSaved(files, tables[..|tables| - 1], path);
      var t := tables[|tables| - 1];
      if Qualifies(t) then before[path := Frame(t)] else before
  }

  /**
   * Overwriting: after the ownership saver the file at `path` holds the last
   * qualifying table, and no other path changes; with no qualifying table
   * nothing changes.
   */
  lemma {:induction false} OwnershipSavedLast(files: map<Path, Csv>, tables: seq<Table>, path: Path)
    ensures OwnershipSaved(files, tables, path) ==
      match LastAccepted(tables, Qualifies)
      case None => files
      case Some(j) => files[path := Frame(tables[j])]
  {
    if tables != [] {
      OwnershipSavedLast(files, tables[..|tables| - 1], path);
      var front := tables[..|tables| - 1];
      if !Qualifies(tables[|tables| - 1]) {
        match LastAccepted(front, Qualifies)
        case None =>
        case Some(j) => assert tables[j] == front[j];
      }
    }
  }

  /** The number of qualifying tables. */
  function QualifyingCount(tables: seq<Table>): nat {
    |Accepted(tables, Qualifies)|
  }

  /**
   * `extract_and_save_tables` (and `save_ownership_tables`): writes each
   * qualifying table to the one ownership path, counts them, and warns when
   * there were none.
   */
  method SaveOwnershipTables(fs: FileSystem, page: Page, outdir: Path, name: string) returns (count: nat, warned: bool)
    modifies fs
    ensures count == QualifyingCount(page.tables)
    ensures warned <==> count == 0
    ensures fs.files == OwnershipSaved(old(fs.files), page.tables, OwnershipPath(outdir, name))
  {
    var tables := page.tables;
    count := 0;
    for i := 0 to |tables|
      invariant count == |Accepted(tables[..i], Qualifies)|
      invariant fs.files == OwnershipSaved(old(fs.files), tables[..i], OwnershipPath(outdir, name))
    {
      assert tables[..i + 1][..i] == tables[..i];
      var data := DataRows(tables[i]);
      if |data| < 2 {
        continue;
      }
      var fname := SanitizeFilename(name) + ".csv";
      fs.files := fs.files[JoinPath(outdir, fname) := Csv(data[0], data[1..])];
      count := count + 1;
    }
    assert tables[..|tables|] == tables;
    warned := count == 0;
  }

  /** `re.match(r"treport([A-Z])", id)`: the captured letter when the id starts that way. */
  function ReportLetter(id: string): (r: Option<char>)
    ensures r.Some? ==> IsUpper(r.value)
  {
    if |id| >= 8 && id[..7] == "treport" && IsUpper(id[7]) then Some(id[7]) else None
  }

  /** An id names letter `c` exactly when it is `treport`, then `c`, then anything. */
  lemma ReportLetterOf(c: char, suffix: string)
    ensures ReportLetter("treport" + [c] + suffix) == (if IsUpper(c) then Some(c) else None)
  {
    var id := "treport" + [c] + suffix;
    assert id[..7] == "treport";
  }

  lemma ReportLetterShape(id: string)
    requires ReportLetter(id).Some?
    ensures id == "treport" + [ReportLetter(id).value] + id[8..]
  {
  }

  /** The letter a complete-flow table is filed under, if the saver looks at it at all. */
  function TableLetter(t: Table): (r: Option<char>)
    ensures r.Some? ==> "RepT" in t.classes && IsUpper(r.value)
  {
    if "RepT" in t.classes then ReportLetter(t.id.GetOr("")) else None
  }

  /** The complete saver writes `t`, under letter `c`. */
  predicate WritesLetter(c: char, t: Table) {
    TableLetter(t) == Some(c) && Qualifies(t)
  }

  function LetterFilter(c: char): Table -> bool {
    t => WritesLetter(c, t)
  }

  /** The file for letter `c`: the sanitised place name, `_TABLE_`, the letter, `.csv`. */
  function CompletePath(outdir: Path, place: string, c: char): (p: Path)
    ensures p == outdir + [SanitizeFilename(place) + "_TABLE_" + [c] + ".csv"]
  {
    JoinPath(outdir, SanitizeFilename(place) + "_TABLE_" + [c] + ".csv")
  }

  /** Different letters name different files. */
  lemma CompletePathInjective(outdir: Path, place: string, c: char, d: char)
    requires CompletePath(outdir, place, c) == CompletePath(outdir, place, d)
    ensures c == d
  {
    var n := |SanitizeFilename(place)|;
    var p, q := CompletePath(outdir, place, c), CompletePath(outdir, place, d);
    assert p[|outdir|] == q[|outdir|];
    assert p[|outdir|][n + 7] == c;
    assert q[|outdir|][n + 7] == d;
  }

  /** The files after the complete saver has gone through `tables` in order. */
  function CompleteSaved(files: map<Path, Csv>, tables: seq<Table>, outdir: Path, place: string): (r: map<Path, Csv>)
    ensures files.Keys <= r.Keys
  {
    if tables == [] then files
    else
      var before := CompleteSaved(files, tables[..|tables| - 1], outdir, place);
      var t := tables[|tables| - 1];
      match TableLetter(t)
      case Some(c) => if Qualifies(t) then before[CompletePath(outdir, place, c) := Frame(t)] else before
      case None => before
  }

  /** `save_complete_tables`: writes each qualifying `RepT` table to the file of its letter. */
  method SaveCompleteTables(fs: FileSystem, page: Page, outdir: Path, place: string)
    modifies fs
    ensures fs.files == CompleteSaved(old(fs.files), page.tables, outdir, place)
  {
    var tables := page.tables;
    for i := 0 to |tables|
      invariant fs.files == CompleteSaved(old(fs.files), tables[..i], outdir, place)
    {
      assert tables[..i + 1][..i] == tables[..i];
      var table := tables[i];
      if "RepT" !in table.classes {
        continue;
      }
      var tableId := table.id.GetOr("");
      var letter := ReportLetter(tableId);
      if letter.None? {
        continue;
      }
      var data := DataRows(table);
      if |data| < 2 {
        continue;
      }
      var fname := SanitizeFilename(place) + "_TABLE_" + [letter.value] + ".csv";
      fs.files := fs.files[JoinPath(outdir, fname) := Csv(data[0], data[1..])];
    }
    assert tables[..|tables|] == tables;
  }

  function Lookup(files: map<Path, Csv>, p: Path): Option<Csv> {
    if p in files then Some(files[p]) else None
  }

  /** The file of letter `c` holds the last qualifying table with that letter, or is untouched. */
  lemma {:induction false} CompleteSavedAtLetter(files: map<Path, Csv>, tables: seq<Table>, outdir: Path, place: string, c: char)
    ensures Lookup(CompleteSaved(files, tables, outdir, place), CompletePath(outdir, place, c)) ==
      match LastAccepted(tables, LetterFilter(c))
      case None => Lookup(files, CompletePath(outdir, place, c))
      case Some(j) => Some(Frame(tables[j]))
  {
    if tables != [] {
      var front := tables[..|tables| - 1];
      var t := tables[|tables| - 1];
      CompleteSavedAtLetter(files, front, outdir, place, c);
      if !LetterFilter(c)(t) {
        match TableLetter(t)
        case None =>
        case Some(d) =>
          if Qualifies(t) && CompletePath(outdir, place, d) == CompletePath(outdir, place, c) {
            CompletePathInjective(outdir, place, c, d);
          }
        match LastAccepted(front, LetterFilter(c))
        case None =>
        case Some(j) => assert tables[j] == front[j];
      }
    }
  }

  /** Paths that are not a letter file of this place are left as they were. */
  lemma {:induction false} CompleteSavedElsewhere(files: map<Path, Csv>, tables: seq<Table>, outdir: Path, place: string, p: Path)
    requires forall c :: p != CompletePath(outdir, place, c)
    ensures Lookup(CompleteSaved(files, tables, outdir, place), p) == Lookup(files, p)
  {
    if tables != [] {
      CompleteSavedElsewhere(files, tables[..|tables| - 1], outdir, place, p);
    }
  }
}

=== FILE: text.dfy ===
/**
 * Character classes and the few string operations the scraper relies on:
 * `str.strip()`, `str.lower()`, `str(int)`, and splitting or joining on a
 * separator character. Only the ASCII range is modelled (see README).
 */
module Text {

  /** `\w` on ASCII: letters, digits and the underscore. */
  predicate IsWordChar(c: char) {
    ('a' <= c <= 'z') || ('A' <= c <= 'Z') || ('0' <= c <= '9') || c == '_'
  }

  /** Python's whitespace on ASCII: space, \t \n \v \f \r and the separators 0x1C to 0x1F. */
  predicate IsSpace(c: char) {
    c == ' ' || ('\t' <= c <= '\r') || ('\U{1C}' <= c <= '\U{1F}')
  }

  predicate IsUpper(c: char) {
    'A' <= c <= 'Z'
  }

  /** Drops leading whitespace; what is dropped is whitespace and what is kept is a suffix. */
  function TrimLeft(s: string): (r: string)
    ensures |r| <= |s| && r == s[|s| - |r|..]
    ensures r == [] || !IsSpace(r[0])
  {
    if s != [] && IsSpace(s[0]) then TrimLeft(s[1..]) else s
  }

  /** What `TrimLeft` drops is whitespace. */
  lemma {:induction false} TrimLeftDropsSpaces(s: string)
    ensures forall k :: 0 <= k < |s| - |TrimLeft(s)| ==> IsSpace(s[k])
  {
    if s != [] && IsSpace(s[0]) {
      TrimLeftDropsSpaces(s[1..]);
      assert forall k :: 1 <= k < |s| ==> s[k] == s[1..][k - 1];
    }
  }

  /** Drops trailing whitespace; what is dropped is whitespace and what is kept is a prefix. */
  function TrimRight(s: string): (r: string)
    ensures |r| <= |s| && r == s[..|r|]
    ensures r == [] || !IsSpace(r[|r| - 1])
  {
    if s != [] && IsSpace(s[|s| - 1]) then TrimRight(s[..|s| - 1]) else s
  }

  /** What `TrimRight` drops is whitespace. */
  lemma {:induction false} TrimRightDropsSpaces(s: string)
    ensures forall k :: |TrimRight(s)| <= k < |s| ==> IsSpace(s[k])
  {
    if s != [] && IsSpace(s[|s| - 1]) {
      TrimRightDropsSpaces(s[..|s| - 1]);
    }
  }

  /** `str.strip()`. */
  function Strip(s: string): (r: string)
    ensures |r| <= |s|
    ensures r == [] || (!IsSpace(r[0]) && !IsSpace(r[|r| - 1]))
  {
    TrimRight(TrimLeft(s))
  }

  /**
   * `str.strip()` keeps a contiguous slice of `s`, and everything before and
   * after that slice is whitespace.
   */
  lemma {:induction false} StripSlice(s: string)
    ensures var i := |s| - |TrimLeft(s)|;
      && Strip(s) == s[i..i + |Strip(s)|]
      && (forall k :: 0 <= k < i ==> IsSpace(s[k]))
      && (forall k :: i + |Strip(s)| <= k < |s| ==> IsSpace(s[k]))
  {
    var t := TrimLeft(s);
    var i := |s| - |t|;
    var r := TrimRight(t);
    assert t == s[i..] && r == Strip(s) && r == t[..|r|];
    TrimLeftDropsSpaces(s);
    TrimRightDropsSpaces(t);
    forall k | i + |r| <= k < |s| ensures IsSpace(s[k]) {
      assert s[k] == t[k - i];
    }
  }

  /** `str.strip()` is empty exactly when `s` is whitespace throughout. */
  lemma {:induction false} StripEmpty(s: string)
    ensures Strip(s) == [] <==> forall k :: 0 <= k < |s| ==> IsSpace(s[k])
  {
    var t := TrimLeft(s);
    var i := |s| - |t|;
    assert t == s[i..];
    TrimLeftDropsSpaces(s);
    TrimRightDropsSpaces(t);
    if TrimRight(t) == [] {
      forall k | 0 <= k < |s| ensures IsSpace(s[k]) {
        if k >= i {
          assert s[k] == t[k - i];
          assert IsSpace(t[k - i]);
        }
      }
    } else {
      assert t[0] == TrimRight(t)[0];
      assert !IsSpace(s[i]);
    }
  }

  function LowerChar(c: char): char {
    if 'A' <= c <= 'Z' then (c as int + 32) as char else c
  }

  /** `str.lower()` on ASCII. */
  function Lower(s: string): (r: string)
    ensures |r| == |s|
    ensures forall i :: 0 <= i < |s| && !('A' <= s[i] <= 'Z') ==> r[i] == s[i]
    ensures forall i :: 0 <= i < |s| && 'A' <= s[i] <= 'Z' ==> r[i] == (s[i] as int + 32) as char
    ensures forall i :: 0 <= i < |s| ==> !('A' <= r[i] <= 'Z')
  {
    seq(|s|, i requires 0 <= i < |s| => LowerChar(s[i]))
  }

  function DigitChar(d: nat): char
    requires d < 10
  {
    "0123456789"[d]
  }

  function DigitValue(c: char): nat {
    if '0' <= c <= '9' then c as int - '0' as int else 0
  }

  /** `str(n)` for a natural number: its decimal digits, most significant first. */
  function NatToDecimal(n: nat): (r: string)
    ensures r != []
    ensures r[0] == '0' ==> n == 0
    ensures forall c :: c in r ==> '0' <= c <= '9'
  {
    if n < 10 then [DigitChar(n)] else NatToDecimal(n / 10) + [DigitChar(n % 10)]
  }

  /** `str(i)` for any integer. */
  function IntToDecimal(i: int): (r: string)
    ensures r != []
    ensures i >= 0 ==> '-' !in r && (r[0] == '0' ==> i == 0)
    ensures forall c :: c in r ==> c == '-' || '0' <= c <= '9'
  {
    if i < 0 then "-" + NatToDecimal(-i) else NatToDecimal(i)
  }

  /** Reads a string of decimal digits back as a number. */
  function DecimalValue(s: string): nat {
    if s == [] then 0 else DecimalValue(s[..|s| - 1]) * 10 + DigitValue(s[|s| - 1])
  }

  lemma {:induction false} DecimalRoundTrip(n: nat)
    ensures DecimalValue(NatToDecimal(n)) == n
  {
    var r := NatToDecimal(n);
    if n >= 10 {
      DecimalRoundTrip(n / 10);
      assert r[..|r| - 1] == NatToDecimal(n / 10);
    }
  }

  /** The parts joined with `sep` between each neighbouring pair, built from the left. */
  function Join(parts: seq<string>, sep: char): string
    requires parts != []
  {
    if |parts| == 1 then parts[0] else Join(parts[..|parts| - 1], sep) + [sep] + parts[|parts| - 1]
  }

  /** `s.split(sep)`: the pieces between occurrences of `sep`; never empty. */
  function Split(s: string, sep: char): (parts: seq<string>)
    ensures parts != []
  {
    if s == [] then [""]
    else if s[0] == sep then [""] + Split(s[1..], sep)
    else var rest := Split(s[1..], sep); [[s[0]] + rest[0]] + rest[1..]
  }

  lemma {:induction false} SplitNoSeparator(s: string, sep: char)
    requires sep !in s
    ensures Split(s, sep) == [s]
  {
    if s != [] {
      SplitNoSeparator(s[1..], sep);
      assert [s[0]] + s[1..] == s;
    }
  }

  lemma {:induction false} SplitLastPiece(a: string, b: string, sep: char)
    requires sep !in b
    ensures Split(a + [sep] + b, sep) == Split(a, sep) + [b]
  {
    var s := a + [sep] + b;
    if a == [] {
      assert s == [sep] + b;
      assert s[1..] == b;
      SplitNoSeparator(b, sep);
    } else {
      assert s[0] == a[0];
      assert s[1..] == a[1..] + [sep] + b;
      SplitLastPiece(a[1..], b, sep);
    }
  }

  /** Splitting a joined list gives the list back when no part holds the separator. */
  lemma {:induction false} SplitJoin(parts: seq<string>, sep: char)
    requires parts != []
    requires forall i :: 0 <= i < |parts| ==> sep !in parts[i]
    ensures Split(Join(parts, sep), sep) == parts
  {
    var n := |parts|;
    if n == 1 {
      SplitNoSeparator(parts[0], sep);
    } else {
      SplitJoin(parts[..n - 1], sep);
      SplitLastPiece(Join(parts[..n - 1], sep), parts[n - 1], sep);
      assert parts[..n - 1] + [parts[n - 1]] == parts;
    }
  }

  /** `s.partition(sep)` without the separator: the text before its first occurrence and the text after. */
  function SplitAtFirst(s: string, sep: char): (string, string) {
    if s == [] then ("", "")
    else if s[0] == sep then ("", s[1..])
    else var (k, v) := SplitAtFirst(s[1..], sep); ([s[0]] + k, v)
  }

  lemma {:induction false} SplitAtFirstKey(k: string, v: string, sep: char)
    requires sep !in k
    ensures SplitAtFirst(k + [sep] + v, sep) == (k, v)
  {
    if k == [] {
      assert k + [sep] + v == [sep] + v;
      assert ([sep] + v)[1..] == v;
    } else {
      var s := k + [sep] + v;
      assert s[1..] == k[1..] + [sep] + v;
      SplitAtFirstKey(k[1..], v, sep);
      assert [k[0]] + k[1..] == k;
    }
  }
}

=== FILE: wrappers.dfy ===
/** Option and Result, the shapes every other module uses for absent values and errors. */
module Wrappers {

  datatype Option<+T> = None | Some(value: T) {
    function GetOr(default: T): T {
      match this
      case Some(v) => v
      case None => default
    }
  }

  datatype Result<+R, +E> = Success(value: R) | Failure(error: E)
}

=== FILE: year_config.dfy ===
/**
 * The per-year release table and the assembly of the report request URL:
 * `YEAR_CONFIG` and `build_post_url` of both scraper scripts.
 */
module YearConfig {
  import opened Wrappers
  import opened Text

  const BaseUrl := "https://ndhrhis.doh.gov.ph"

  /** Everything up to the start of the `^`-separated `prm` field list. */
  const PostUrlPrefix := BaseUrl + "/system.bcall.page.php?xcrs=RPA0001b.php&prm="

  /** The report selector of the ownership flow and of the complete flow. */
  const OwnershipSbrep := "E"
  const CompleteSbrep := "A%20B%20C%20D%20E"

  /** One release: its sequence number, its title as the portal spells it, its publication date. */
  datatype YearEntry = YearEntry(seqn: string, title: string, gdate: string)

  /** The hand-curated latest December release of each year; the 2019 title has a capital "Of". */
  const YearTable: map<int, YearEntry> := map[
    2024 := YearEntry("02", "As of December 31, 2024", "2025-01-03"),
    2023 := YearEntry("02", "As of December 2023", "2024-01-02"),
    2022 := YearEntry("02", "As of December 2022", "2023-01-04"),
    2021 := YearEntry("03", "As of December 2021", "2022-01-03"),
    2020 := YearEntry("01", "As of December 31, 2020", "2020-07-22"),
    2019 := YearEntry("01", "As Of December 31, 2019", "2020-01-24"),
    2018 := YearEntry("01", "As of December 31, 2018", "2018-09-07"),
    2017 := YearEntry("03", "As of December 31, 2017 - Third set of test data", "2018-06-10")
  ]

  /** Indexing the table with a year it does not list. */
  datatype LookupError = KeyError(year: int)

  /** The table lists exactly the years 2017 to 2024, and the 2019 title is kept verbatim. */
  lemma YearTableYears()
    ensures forall y :: y in YearTable <==> 2017 <= y <= 2024
    ensures YearTable[2019].title == "As Of December 31, 2019"
  {
  }

  /** `sorted(YEAR_CONFIG)`: every listed year once, in ascending order. */
  function SortedYears(): (ys: seq<int>)
    ensures forall i, j :: 0 <= i < j < |ys| ==> ys[i] < ys[j]
    ensures forall y :: y in ys <==> y in YearTable
  {
    [2017, 2018, 2019, 2020, 2021, 2022, 2023, 2024]
  }

  predicate EndsWith(s: string, suffix: string) {
    |suffix| <= |s| && s[|s| - |suffix|..] == suffix
  }

  /** One `key=value` entry of the `prm` list. */
  function Field(key: string, value: string): string {
    key + "=" + value
  }

  /**
   * The value of the `prm` parameter: `level`, `year`, `seqn`, `title`,
   * `gdate`, `allfltr=0`, `prvslct=A`, `prvlist=` and `sbrep`, joined by `^`.
   */
  function PrmList(level: int, year: int, e: YearEntry, sbrep: string): (r: string)
    ensures EndsWith(r, Field("sbrep", sbrep))
  {
    Field("level", IntToDecimal(level)) + "^" + Field("year", IntToDecimal(year))
      + "^" + Field("seqn", e.seqn) + "^" + Field("title", e.title) + "^" + Field("gdate", e.gdate)
      + "^" + Field("allfltr", "0") + "^" + Field("prvslct", "A") + "^" + Field("prvlist", "")
      + "^" + Field("sbrep", sbrep)
  }

  /**
   * `build_post_url` of the complete scraper, where the report selector comes
   * from the configuration. A year missing from the table is a `KeyError`.
   */
  function BuildPostUrl(level: int, year: int, sbrep: string): (r: Result<string, LookupError>)
    ensures r.Success? <==> year in YearTable
    ensures r.Failure? ==> r.error == KeyError(year)
    ensures r.Success? ==> PostUrlPrefix <= r.value && EndsWith(r.value, "sbrep=" + sbrep)
  {
    if year !in YearTable then Failure(KeyError(year))
    else
      var prm := PrmList(level, year, YearTable[year], sbrep);
      var url := PostUrlPrefix + prm;
      assert EndsWith(url, "sbrep=" + sbrep) by {
        assert "sbrep=" + sbrep == Field("sbrep", sbrep);
        assert |url| >= |Field("sbrep", sbrep)|;
      }
      Success(url)
  }

  /** `build_post_url` of the ownership scraper: the same URL with the report selector fixed to `E`. */
  function BuildOwnershipPostUrl(level: int, year: int): (r: Result<string, LookupError>)
    ensures r == BuildPostUrl(level, year, OwnershipSbrep)
    ensures r.Success? ==> EndsWith(r.value, "sbrep=E")
  {
    if year !in YearTable then Failure(KeyError(year))
    else Success(PostUrlPrefix + PrmList(level, year, YearTable[year], "E"))
  }

  /**
   * Reads a request URL back: after the fixed prefix, the `prm` list split at
   * each `^`, each field split at its first `=` into a key and a value.
   */
  function ParsePrm(url: string): Option<seq<(string, string)>> {
    if PostUrlPrefix <= url then
      var fields := Split(url[|PostUrlPrefix|..], '^');
      Some(seq(|fields|, i requires 0 <= i < |fields| => SplitAtFirst(fields[i], '=')))
    else None
  }

  predicate HasNoCaret(e: YearEntry) {
    '^' !in e.seqn && '^' !in e.title && '^' !in e.gdate
  }

  /** A title made of caret-free pieces, each short enough to check outright, is caret-free. */
  lemma NoCaretInPieces(t: string, a: string, b: string, c: string, d: string)
    requires t == a + b + c + d
    requires '^' !in a && '^' !in b && '^' !in c && '^' !in d
    ensures '^' !in t
  {
  }

  lemma TitleNoCaret2024(t: string)
    requires t == "As of December 31, 2024"
    ensures '^' !in t
  {
    NoCaretInPieces(t, "As of ", "Decemb", "er 31,", " 2024");
  }

  lemma NoCaret2024()
    ensures HasNoCaret(YearTable[2024])
  {
    TitleNoCaret2024(YearTable[2024].title);
  }

  lemma TitleNoCaret2023(t: string)
    requires t == "As of December 2023"
    ensures '^' !in t
  {
    NoCaretInPieces(t, "As of", " Dece", "mber ", "2023");
  }

  lemma NoCaret2023()
    ensures HasNoCaret(YearTable[2023])
  {
    TitleNoCaret2023(YearTable[2023].title);
  }

  lemma TitleNoCaret2022(t: string)
    requires t == "As of December 2022"
    ensures '^' !in t
  {
    NoCaretInPieces(t, "As of", " Dece", "mber ", "2022");
  }

  lemma NoCaret2022()
    ensures HasNoCaret(YearTable[2022])
  {
    TitleNoCaret2022(YearTable[2022].title);
  }

  lemma TitleNoCaret2021(t: string)
    requires t == "As of December 2021"
    ensures '^' !in t
  {
    NoCaretInPieces(t, "As of", " Dece", "mber ", "2021");
  }

  lemma NoCaret2021()
    ensures HasNoCaret(YearTable[2021])
  {
    TitleNoCaret2021(YearTable[2021].title);
  }

  lemma TitleNoCaret2020(t: string)
    requires t == "As of December 31, 2020"
    ensures '^' !in t
  {
    NoCaretInPieces(t, "As of ", "Decemb", "er 31,", " 2020");
  }

  lemma NoCaret2020()
    ensures HasNoCaret(YearTable[2020])
  {
    TitleNoCaret2020(YearTable[2020].title);
  }

  lemma TitleNoCaret2019(t: string)
    requires t == "As Of December 31, 2019"
    ensures '^' !in t
  {
    NoCaretInPieces(t, "As Of ", "Decemb", "er 31,", " 2019");
  }

  lemma NoCaret2019()
    ensures HasNoCaret(YearTable[2019])
  {
    TitleNoCaret2019(YearTable[2019].title);
  }

  lemma TitleNoCaret2018(t: string)
    requires t == "As of December 31, 2018"
    ensures '^' !in t
  {
    NoCaretInPieces(t, "As of ", "Decemb", "er 31,", " 2018");
  }

  lemma NoCaret2018()
    ensures HasNoCaret(YearTable[2018])
  {
    TitleNoCaret2018(YearTable[2018].title);
  }

  lemma TitleNoCaret2017Head(t: string)
    requires t == "As of December 31, 2017 "
    ensures '^' !in t
  {
    NoCaretInPieces(t, "As of ", "Decemb", "er 31,", " 2017 ");
  }

  lemma TitleNoCaret2017Tail(t: string)
    requires t == "- Third set of test data"
    ensures '^' !in t
  {
    NoCaretInPieces(t, "- Thir", "d set ", "of tes", "t data");
  }

  lemma TitleNoCaret2017(t: string)
    requires t == "As of December 31, 2017 - Third set of test data"
    ensures '^' !in t
  {
    assert t == t[..24] + t[24..];
    TitleNoCaret2017Head(t[..24]);
    TitleNoCaret2017Tail(t[24..]);
  }

  lemma NoCaret2017()
    ensures HasNoCaret(YearTable[2017])
  {
    TitleNoCaret2017(YearTable[2017].title);
  }

  /** No table entry holds the field separator. */
  lemma YearTableHasNoCaret(year: int)
    requires year in YearTable
    ensures HasNoCaret(YearTable[year])
  {
    NoCaret2024();
    NoCaret2023();
    NoCaret2022();
    NoCaret2021();
    NoCaret2020();
    NoCaret2019();
    NoCaret2018();
    NoCaret2017();
  }

  /** The keys of the `prm` list, in the order the URL carries them. */
  const PrmKeys: seq<string> := ["level", "year", "seqn", "title", "gdate", "allfltr", "prvslct", "prvlist", "sbrep"]

  function PrmValues(level: int, year: int, e: YearEntry, sbrep: string): seq<string> {
    [IntToDecimal(level), IntToDecimal(year), e.seqn, e.title, e.gdate, "0", "A", "", sbrep]
  }

  function PrmFields(level: int, year: int, e: YearEntry, sbrep: string): (fs: seq<string>)
    ensures |fs| == 9
  {
    var vals := PrmValues(level, year, e, sbrep);
    seq(9, i requires 0 <= i < 9 => Field(PrmKeys[i], vals[i]))
  }

  lemma PrmListIsJoin(level: int, year: int, e: YearEntry, sbrep: string)
    ensures PrmList(level, year, e, sbrep) == Join(PrmFields(level, year, e, sbrep), '^')
  {
    var fields := PrmFields(level, year, e, sbrep);
    assert Join(fields[..1], '^') == fields[0];
    assert Join(fields[..2], '^') == Join(fields[..1], '^') + "^" + fields[1] by { assert fields[..2][..1] == fields[..1]; }
    assert Join(fields[..3], '^') == Join(fields[..2], '^') + "^" + fields[2] by { assert fields[..3][..2] == fields[..2]; }
    assert Join(fields[..4], '^') == Join(fields[..3], '^') + "^" + fields[3] by { assert fields[..4][..3] == fields[..3]; }
    assert Join(fields[..5], '^') == Join(fields[..4], '^') + "^" + fields[4] by { assert fields[..5][..4] == fields[..4]; }
    assert Join(fields[..6], '^') == Join(fields[..5], '^') + "^" + fields[5] by { assert fields[..6][..5] == fields[..5]; }
    assert Join(fields[..7], '^') == Join(fields[..6], '^') + "^" + fields[6] by { assert fields[..7][..6] == fields[..6]; }
    assert Join(fields[..8], '^') == Join(fields[..7], '^') + "^" + fields[7] by { assert fields[..8][..7] == fields[..7]; }
    assert Join(fields, '^') == Join(fields[..8], '^') + "^" + fields[8];
  }

  /** Each field splits at its first `=` into its key and its value. */
  lemma PrmFieldsParse(level: int, year: int, e: YearEntry, sbrep: string)
    ensures var fields := PrmFields(level, year, e, sbrep);
      seq(9, i requires 0 <= i < 9 => SplitAtFirst(fields[i], '=')) == [
        ("level", IntToDecimal(level)), ("year", IntToDecimal(year)),
        ("seqn", e.seqn), ("title", e.title), ("gdate", e.gdate),
        ("allfltr", "0"), ("prvslct", "A"), ("prvlist", ""), ("sbrep", sbrep)]
  {
    var vals := PrmValues(level, year, e, sbrep);
    var fields := PrmFields(level, year, e, sbrep);
    forall i | 0 <= i < 9 ensures SplitAtFirst(fields[i], '=') == (PrmKeys[i], vals[i]) {
      SplitAtFirstKey(PrmKeys[i], vals[i], '=');
    }
  }

  /** Read back, a `prm` list gives its nine fields in order, each value as it went in. */
  lemma PrmListFields(level: int, year: int, e: YearEntry, sbrep: string)
    requires HasNoCaret(e) && '^' !in sbrep
    ensures var fields := Split(PrmList(level, year, e, sbrep), '^');
      seq(|fields|, i requires 0 <= i < |fields| => SplitAtFirst(fields[i], '=')) == [
        ("level", IntToDecimal(level)), ("year", IntToDecimal(year)),
        ("seqn", e.seqn), ("title", e.title), ("gdate", e.gdate),
        ("allfltr", "0"), ("prvslct", "A"), ("prvlist", ""), ("sbrep", sbrep)]
  {
    var vals := PrmValues(level, year, e, sbrep);
    var fields := PrmFields(level, year, e, sbrep);
    PrmListIsJoin(level, year, e, sbrep);
    forall i | 0 <= i < 9 ensures '^' !in fields[i] {
      assert '^' !in PrmKeys[i] && '^' !in vals[i];
    }
    SplitJoin(fields, '^');
    PrmFieldsParse(level, year, e, sbrep);
  }

  /**
   * The request URL carries exactly nine fields, in the order level, year,
   * seqn, title, gdate, allfltr, prvslct, prvlist, sbrep, with the table's
   * values for the year (the title verbatim) and the given report selector.
   */
  lemma PostUrlFields(level: int, year: int, sbrep: string)
    requires year in YearTable
    requires '^' !in sbrep
    ensures var e := YearTable[year];
      ParsePrm(BuildPostUrl(level, year, sbrep).value) == Some([
        ("level", IntToDecimal(level)), ("year", IntToDecimal(year)),
        ("seqn", e.seqn), ("title", e.title), ("gdate", e.gdate),
        ("allfltr", "0"), ("prvslct", "A"), ("prvlist", ""), ("sbrep", sbrep)])
  {
    var e := YearTable[year];
    YearTableHasNoCaret(year);
    PrmListFields(level, year, e, sbrep);
    var url := BuildPostUrl(level, year, sbrep).value;
    assert url[|PostUrlPrefix|..] == PrmList(level, year, e, sbrep);
  }

  /** The ownership request ends in `sbrep=E` and reads back with the table's seqn, title and gdate. */
  lemma OwnershipPostUrlFields(level: int, year: int)
    requires year in YearTable
    ensures var e := YearTable[year];
      ParsePrm(BuildOwnershipPostUrl(level, year).value) == Some([
        ("level", IntToDecimal(level)), ("year", IntToDecimal(year)),
        ("seqn", e.seqn), ("title", e.title), ("gdate", e.gdate),
        ("allfltr", "0"), ("prvslct", "A"), ("prvlist", ""), ("sbrep", "E")])
  {
    PostUrlFields(level, year, OwnershipSbrep);
  }
}
